=== FILE: README.md ===
# Wikipedia link graph builder — a Dafny model

The service answers `GET /graph/:topic` with a bounded-depth graph of
Wikipedia articles. It starts at the queried topic and follows each article's
outbound links up to `depth` steps, which defaults to 0. Each article is
recorded once, as a node holding:

- its id,
- a display title, which is the id with underscores shown as spaces,
- its links exactly as fetched.

A shared visited set claims a topic before it is fetched. That set stops
cycles and duplicate fetches. The nodes of sibling branches are merged
first-writer-wins. A single failed link lookup fails the whole request.

This project models that builder (`buildGraph`) and the pure part of the
request handler (`getGraph`), and proves what they promise.

The model has these modules:

- `Results` (results.dfy): `Option` and `Result`.
- `Text` (text.dfy): the two character rewrites.
  - `Title` turns `_` into a space.
  - `Normalize` turns a space into `_` before a link is expanded.
- `Types` (types.dfy): the records `GraphNode` and `LinkGraph`, and the link lookup `Fetcher`.
  - `Fetcher` is a total function from a topic to a list of links or a failure message.
  - Node-list vocabulary: `IdSet`, `DistinctIds`, and `Faithful`, which means every node carries its own fetch output and its derived title.
- `NodeMerge` (merge.dfy): the first-writer-wins merge of node collections.
- `Reach` (reach.dfy): the reference the builder is measured against.
  - `Within(fetch, root, k)` is the set of topics at most `k` normalised-link steps from the root.
  - Each step goes only through topics whose lookup succeeds.
  - `Within` is defined by iterating a one-step successor set. It does not mention the traversal at all.
- `Graph` (graph.dfy): the builder and the handler.
  - `ExpandLevel` processes one level's frontier.
  - `BuildLevels` runs the levels.
  - `BuildGraph` is the builder.
  - `GetGraph` is the handler.
  - A `Run` pairs an outcome with the topics looked up, in order; `FetchLog` is the build's log of lookups.
- `GraphProperties` (properties.dfy): consequences of the builder's contract.
  - The depth-0 answer.
  - The frontier rule.
  - Where every node comes from.
  - The node count on a cycle.
- `Scenarios` (scenarios.dfy): the request-level scenarios of graph/graph.test.ts.
  - Each is stated for every link lookup that answers the scenario's topics as the test's table does.
  - The three failure scenarios (`FailureWithinDepth`, `FailureBeyondDepthUnseen`, `FailureLooksUpSiblings`) have no test. They are the model's own scenarios for the failure path and the depth gate of graph/graph.ts.

**Claim order.** Every recursive call of `buildGraph` checks and claims its
topic, and starts its fetch, before its first `await`. So all siblings are
claimed in link order before any of them is expanded. The model therefore
runs the traversal level by level:

- Each topic of the frontier is claimed if unvisited, then fetched and recorded.
- A failed lookup does not stop its level: its siblings were dispatched with it. The level fails with its first failure in frontier order.
- Below `maxDepth`, the normalised links of the newly claimed topics form the next frontier, in order.

A plain depth-first order would differ on the shared-descendant test. There,
depth-first claims C at depth 2 through B, and D is never reached. Level order
claims C at depth 1, so D is recorded.

**Main theorem** (`Graph.BuildGraph`):

- The build succeeds exactly when every topic in `Within(fetch, root, maxDepth)` can be fetched.
- On failure, the error names a topic within that ball whose lookup failed, together with its cause.
- On success, the node ids are exactly that ball, each id occurs once, and every node is faithful to its fetch.

**Normalisation asymmetry.** Links are normalised only when they are expanded;
the queried topic is used as given. A root containing a space is therefore a
different topic from the normalised form of a link back to it. The model keeps
this asymmetry. `Text.SpacedIdIsNotNormal` states it. The normalisation is
done by the builder itself, at the recursive call (graph/graph.ts:51), and not
by whoever calls it. The model follows the code here.

## Model

| member | source | states |
|---|---|---|
| Graph.BuildGraph | graph/graph.ts:23-63 | succeeds iff every topic within `maxDepth` normalised-link steps of the root can be fetched; on failure names such a topic whose lookup failed, with its cause; on success the node ids are exactly those topics, each once, each node carrying its own fetch output and derived title |
| Graph.BuildLevels | graph/graph.ts:29-61 | from a level's invariant (visited = topics closer than `depth`, frontier completing the ball of `depth`, nodes = visited topics), the remaining levels succeed iff the unvisited rest of the ball is fetchable, keep the nodes so far as a prefix, and end with exactly the ball, distinct and faithful |
| Graph.ExpandLevel | graph/graph.ts:29-52 | one level succeeds iff every unvisited frontier topic can be fetched; it visits the whole frontier, claims exactly the unvisited frontier topics once each with faithful nodes, and the next frontier holds exactly their normalised links when expanding and nothing at the depth limit |
| Graph.FetchLog | graph/graph.ts:23-63 | up to the end of the level that decides the answer, the build looks each topic up at most once and only topics within `maxDepth` steps; a successful build looks up exactly the topics it records; a build that fails on a topic `d` steps from the root looks up, up to the end of that failed level, exactly the topics within `d` steps |
| Graph.ExpandLog | graph/graph.ts:29-53 | whether the level succeeds or fails, it looks up every unvisited frontier topic exactly once and nothing else |
| Graph.BuildLog | graph/graph.ts:29-53 | from a level's invariant, the remaining levels look up no topic twice, only unvisited topics within `maxDepth` steps, all of them on success, and on a failure `d` steps from the root exactly the unvisited topics within `d` steps |
| Graph.MergedLevel | graph/graph.ts:54-59 | merging a level's claimed nodes into the earlier ones keeps those as a prefix and yields exactly the topics within `depth`, once each, all faithful |
| Graph.NextLevel | graph/graph.ts:49-52 | after a level the invariant holds one level deeper: the visited set is the ball of `depth` and the new frontier completes the ball of `depth + 1` |
| Graph.RootFirst | graph/graph.ts:45-46 | on success the root's lookup succeeded and the first node is the root's node with the root's full link list |
| Graph.RootLevel | graph/graph.ts:29-46 | the first level claims the root alone, so merging it into the empty collection gives exactly the root's node |
| Graph.GetGraph | graph/graph.ts:67-76 | with the depth defaulting to 0: succeeds iff the ball of that depth is fetchable, passes the failing topic and cause on, answers with the queried topic as root and the root's node first, and otherwise has the builder's node set, distinct and faithful |
| NodeMerge.Merge | graph/graph.ts:54-59 | first-writer-wins merge: the existing nodes stay as a prefix, the ids are the union, only child nodes with new ids are appended, and distinct ids stay distinct |
| NodeMerge.MergeDisjoint | graph/graph.ts:54-59 | when the two collections share no id the merge is plain concatenation: nothing of the child is lost |
| Types.MakeNode | graph/graph.ts:39-43 | the recorded node keeps the id and the fetched links unchanged; its title is the id with every underscore turned into a space and every other character kept |
| Types.MakeNodeTitleRoundTrip | graph/graph.ts:41-51 | for a space-free topic, normalising the recorded title as a link would be gives the topic back |
| Types.DistinctIdsCount | types.ts:13-16 | a node list with distinct ids has exactly as many ids as nodes |
| Text.Replace | graph/graph.ts:41 | a global one-character replace keeps the length and rewrites exactly the positions holding the replaced character |
| Text.Title | graph/graph.ts:41 | the title has the id's length, no underscore, a space exactly where the id had an underscore or a space, and the id's character everywhere else |
| Text.Normalize | graph/graph.ts:51 | the expanded topic has the link's length, no space, `_` at every position that held a space, and the link's character at every other position |
| Text.NormalizeAll | graph/graph.ts:50-51 | the links to expand are the fetched links normalised one by one, in order |
| Text.NormalizeSpaceless | graph/graph.ts:51 | a link without spaces is expanded under exactly its own name |
| Text.NormalizeIdempotent | graph/graph.ts:51 | normalising an already normalised topic changes nothing |
| Text.TitleOfNormalized | graph/graph.ts:41-51 | the title of a node reached through a link does not depend on the normalisation: it equals the title of the raw link |
| Text.TitlePlain | graph/graph.ts:41 | an id without underscores is its own title |
| Text.NormalizeTitleRoundTrip | graph/graph.ts:41-51 | for a space-free id, normalising its title gives the id back |
| Text.SpacedIdIsNotNormal | graph/graph.ts:51 | a topic containing a space differs from its normalised form, so the same article reached through a link is a different node |
| Reach.SuccSingleton | graph/graph.ts:50-51 | one fetched topic contributes to the next level exactly the normalised forms of its links |
| Reach.WithinStep | graph/graph.ts:49-51 | the ball of radius `k` is the root plus one normalised-link step out of the ball of radius `k - 1` |
| Reach.WithinParent | graph/graph.ts:49-51 | every topic reached other than the root is the normalised form of a link of a fetchable topic one step closer to the root |
| Reach.WithinMonotone | graph/graph.ts:49 | a deeper limit never loses a topic |
| GraphProperties.DepthZero | graph/graph.ts:49 | at depth 0 the answer is the root node alone with its complete link list, or the root's own failure |
| GraphProperties.DefaultDepth | graph/graph.ts:68-73 | a request without a depth answers with exactly the root node and the queried topic as root |
| GraphProperties.FrontierRule | graph/graph.ts:49-51 | the node ids are the root plus the normalised links of the nodes closer than `maxDepth` to the root; links of nodes at `maxDepth` are recorded but add no node |
| GraphProperties.NodeParent | graph/graph.ts:49-51 | every non-root node is the normalised form of a link of a recorded node closer than `maxDepth` to the root |
| GraphProperties.CycleWithin | graph/graph.ts:29-30 | within `m` steps of the start of a link cycle lie exactly its first `m + 1` topics |
| GraphProperties.CycleBuild | graph/graph.ts:29-30 | a cycle of `k` distinct topics built to a depth of at least `k - 1` succeeds with exactly `k` nodes, one per topic of the cycle |
| Scenarios.RootOnlyAtDepthZero | graph/graph.test.ts:21-47 | depth 0 answers with the root alone, its title equal to its id, carrying all of its links |
| Scenarios.ChildLinksNotExpanded | graph/graph.test.ts:51-71 | depth 1 with root linking to one child: exactly root and child are recorded, with their own links; the child's links add no node |
| Scenarios.SharedDescendant | graph/graph.test.ts:75-88 | A to [B, C], B to [C], C to [D] at depth 2 gives exactly the four nodes A, B, C, D with B, C and D carrying their own links |
| Scenarios.FailureWithinDepth | graph/graph.ts:33-37 | when C's lookup fails and C is within depth, the build fails naming C and the lookup's cause |
| Scenarios.FailureBeyondDepthUnseen | graph/graph.ts:49 | a failing lookup beyond the depth limit is never reached: the build succeeds with exactly A, B, C |
| Scenarios.FailureLooksUpSiblings | graph/graph.ts:29-53 | a root linking to B and C with B's lookup failing at depth 1: the build fails, and by then A, B and C have all been looked up, since C was dispatched with B |
| Scenarios.SelfLoop | graph/graph.test.ts:92-99 | a page linking to itself at depth 1 gives exactly one node whose links keep the self-reference |
| Scenarios.TwoCycle | graph/graph.test.ts:101-110 | A to B to A at depth 2 gives exactly two nodes, each with its own single link |
| Scenarios.ThreeCycle | graph/graph.test.ts:112-119 | A to B to C to A at depth 3 gives exactly three nodes, C linking back to A |

## Left out

- The link lookup in graph/wikipedia.ts is not modelled: the HTTP request, URL encoding and JSON extraction. Every build takes the lookup as a `Fetcher` parameter, a total function from a topic to its links or a failure message.
- Promise concurrency is not modelled. The traversal follows the level-order claim schedule that arises when every lookup takes equally long, which is the schedule the mocked tests see. With arbitrary network completion order, a topic can be claimed at a deeper level first. The real program may then expand less than the model does.
- Graph.BuildGraph: states no node order; Graph.RootFirst and Graph.GetGraph state only that the root comes first. The model produces nodes in claim order. The program's `Map` produces them in a preorder of the claim tree. Fetch completion order is arbitrary anyway, so no further order is promised.
- Graph.FetchLog: lookups beyond the failed level are not logged. The log ends with the failed level. In the program, the failed level's successful siblings resume before the rejection propagates through `Promise.all`. They have already started lookups at the next level, and possibly deeper, before the program answers. `Promise.all` cancels nothing, so those branches also keep expanding afterwards.
- Graph.BuildLog: the same gap, level by level: the levels after a failed one are not run.
- Graph.GetGraph: the `APIError` wrapping and its message text ("Failed to fetch links for …", "Error building graph: …") are not modelled. The error carries the failing topic and the lookup's cause, which is everything those messages contain.
- The endpoint declaration and the request validation (graph/graph.ts:1-11, 65-66) are not modelled as code. The handler's precondition `Graph.ValidRequest` carries the bounds: 1 to 50 characters for the topic, and 0 to 5 for the depth. The depth is a natural number, so non-integer depths are not modelled. The topic length is counted in Dafny characters, not UTF-16 code units.
- The tests' mocking of the lookup (vitest spies) is not modelled. Its tables appear only as the requirements of the `Scenarios` lemmas.

=== FILE: graph.dfy ===
/** The graph builder: claim, fetch, record and expand topics level by level
    from the root, then wrap the collected nodes into the answer. */
module Graph {
  import opened Results
  import opened Text
  import opened Types
  import opened NodeMerge
  import opened Reach

  /** The build failed because the links of `topic` could not be fetched. */
  datatype BuildError = FetchFailed(topic: Topic, cause: string)

  /** The outcome of one level: the visited set after it, the nodes it
      claimed in claim order, and the frontier of the next level. */
  datatype Level = Level(visited: set<Topic>, claimed: seq<GraphNode>, next: seq<Topic>)

  /** A run of the builder: its outcome and the topics it looked up, in the
      order of the lookups. */
  datatype Run<T> = Run(result: Result<T, BuildError>, fetched: seq<Topic>)

  /** Processes one level's frontier in order. A topic already visited is
      skipped; otherwise it is claimed, fetched and recorded, and when
      `expand` holds its normalised links join the next frontier. A failed
      fetch does not stop the level: every sibling is claimed and looked up
      before any lookup answers, and the level fails with its first failure. */
  function ExpandLevel(fetch: Fetcher, frontier: seq<Topic>, expand: bool, visited: set<Topic>): (r: Run<Level>)
    ensures r.result.Success? <==> Fetchable(fetch, Elems(frontier) - visited)
    ensures r.result.Failure? ==>
      r.result.error.topic in Elems(frontier) - visited && fetch(r.result.error.topic) == Failure(r.result.error.cause)
    ensures r.result.Success? ==> r.result.value.visited == visited + Elems(frontier)
    ensures r.result.Success? ==> IdSet(r.result.value.claimed) == Elems(frontier) - visited
    ensures r.result.Success? ==> DistinctIds(r.result.value.claimed) && Faithful(fetch, r.result.value.claimed)
    ensures r.result.Success? && expand ==> Elems(r.result.value.next) == Succ(fetch, Elems(frontier) - visited)
    ensures r.result.Success? && !expand ==> r.result.value.next == []
    decreases |frontier|
  {
    if |frontier| == 0 then Run(Success(Level(visited, [], [])), [])
    else
      var t, rest := frontier[0], frontier[1..];
      assert Elems(frontier) == {t} + Elems(rest) by {
        assert frontier == [t] + rest;
      }
      if t in visited then
        assert Elems(frontier) - visited == Elems(rest) - visited;
        ExpandLevel(fetch, rest, expand, visited)
      else
        match fetch(t)
        case Failure(cause) =>
          var tail := ExpandLevel(fetch, rest, expand, visited + {t});
          Run(Failure(FetchFailed(t, cause)), [t] + tail.fetched)
        case Success(links) =>
          var tail := ExpandLevel(fetch, rest, expand, visited + {t});
          assert Elems(frontier) - visited == {t} + (Elems(rest) - (visited + {t}));
          var fetched := [t] + tail.fetched;
          if tail.result.Failure? then Run(Failure(tail.result.error), fetched)
          else
            var lv := tail.result.value;
            var node := MakeNode(t, links);
            assert IdSet([node] + lv.claimed) == {t} + IdSet(lv.claimed);
            assert DistinctIds([node] + lv.claimed) by {
              ConsDistinct(node, lv.claimed);
            }
            ConsFaithful(fetch, node, lv.claimed);
            SuccUnion(fetch, {t}, Elems(rest) - (visited + {t}));
            SuccSingleton(fetch, t, links);
            var next := (if expand then NormalizeAll(links) else []) + lv.next;
            assert Elems(next) == Elems(if expand then NormalizeAll(links) else []) + Elems(lv.next);
            Run(Success(Level(lv.visited, [node] + lv.claimed, next)), fetched)
  }

  /** The lookups of one level, whether it succeeds or fails: each unvisited
      frontier topic once, and nothing else. */
  ghost predicate LevelLog(fetch: Fetcher, frontier: seq<Topic>, expand: bool, visited: set<Topic>)
  {
    var r := ExpandLevel(fetch, frontier, expand, visited);
    Distinct(r.fetched) && Elems(r.fetched) == Elems(frontier) - visited
  }

  lemma {:induction false} ExpandLog(fetch: Fetcher, frontier: seq<Topic>, expand: bool, visited: set<Topic>)
    ensures LevelLog(fetch, frontier, expand, visited)
    decreases |frontier|
  {
    if |frontier| > 0 {
      var t, rest := frontier[0], frontier[1..];
      if t in visited {
        ExpandLog(fetch, rest, expand, visited);
        SkippedLog(fetch, frontier, expand, visited);
      } else {
        ExpandLog(fetch, rest, expand, visited + {t});
        ClaimedLog(fetch, frontier, expand, visited);
      }
    }
  }

  lemma SkippedLog(fetch: Fetcher, frontier: seq<Topic>, expand: bool, visited: set<Topic>)
    requires |frontier| > 0 && frontier[0] in visited
    requires LevelLog(fetch, frontier[1..], expand, visited)
    ensures LevelLog(fetch, frontier, expand, visited)
  {
    assert Elems(frontier) == {frontier[0]} + Elems(frontier[1..]) by {
      assert frontier == [frontier[0]] + frontier[1..];
    }
  }

  lemma ClaimedLog(fetch: Fetcher, frontier: seq<Topic>, expand: bool, visited: set<Topic>)
    requires |frontier| > 0 && frontier[0] !in visited
    requires LevelLog(fetch, frontier[1..], expand, visited + {frontier[0]})
    ensures LevelLog(fetch, frontier, expand, visited)
  {
    var t, rest := frontier[0], frontier[1..];
    assert Elems(frontier) == {t} + Elems(rest) by {
      assert frontier == [t] + rest;
    }
    var tail := ExpandLevel(fetch, rest, expand, visited + {t});
    ExpandClaimed(fetch, frontier, expand, visited);
    ClaimLog(t, tail.fetched, Elems(rest) - (visited + {t}));
  }

  /** A claimed topic is looked up before the rest of the frontier, whatever
      its lookup answers. */
  lemma ExpandClaimed(fetch: Fetcher, frontier: seq<Topic>, expand: bool, visited: set<Topic>)
    requires |frontier| > 0 && frontier[0] !in visited
    ensures var r := ExpandLevel(fetch, frontier, expand, visited);
      var tail := ExpandLevel(fetch, frontier[1..], expand, visited + {frontier[0]});
      r.fetched == [frontier[0]] + tail.fetched
  {
  }

  /** Prefixing a lookup of a topic that the later lookups never touch. */
  lemma ClaimLog(t: Topic, log: seq<Topic>, later: set<Topic>)
    requires Distinct(log) && Elems(log) <= later && t !in later
    ensures Distinct([t] + log) && Elems([t] + log) == {t} + Elems(log)
  {
    DistinctConcat([t], log);
  }

  lemma ConsFaithful(fetch: Fetcher, n: GraphNode, nodes: seq<GraphNode>)
    requires Faithful(fetch, nodes) && fetch(n.id) == Success(n.links) && n.title == Title(n.id)
    ensures Faithful(fetch, [n] + nodes)
  {
  }

  lemma ConsDistinct(n: GraphNode, nodes: seq<GraphNode>)
    requires DistinctIds(nodes) && n.id !in IdSet(nodes)
    ensures DistinctIds([n] + nodes)
  {
    var s := [n] + nodes;
    forall i, j | 0 <= i < j < |s| ensures s[i].id != s[j].id {
      assert s[j] == nodes[j - 1];
      if i > 0 {
        assert s[i] == nodes[i - 1];
      }
    }
  }

  /** What holds before level `depth` is processed: the visited set is every
      topic closer than `depth` to the root, the frontier completes it to every
      topic within `depth`, and the nodes so far are exactly the visited
      topics, each once, each faithful to its fetch. */
  ghost predicate LevelInv(fetch: Fetcher, root: Topic, depth: nat, frontier: seq<Topic>, visited: set<Topic>, nodes: seq<GraphNode>)
  {
    && visited == Before(fetch, root, depth)
    && visited + Elems(frontier) == Within(fetch, root, depth)
    && IdSet(nodes) == visited
    && DistinctIds(nodes)
    && Faithful(fetch, nodes)
  }

  /** Processes the levels `depth` to `maxDepth`, merging each level's
      claimed nodes into `nodes`. Links are expanded only below `maxDepth`. */
  function BuildLevels(fetch: Fetcher, ghost root: Topic, frontier: seq<Topic>, depth: nat, maxDepth: nat,
                       visited: set<Topic>, nodes: seq<GraphNode>): (r: Run<seq<GraphNode>>)
    requires depth <= maxDepth
    requires LevelInv(fetch, root, depth, frontier, visited, nodes)
    ensures r.result.Success? <==> Fetchable(fetch, Within(fetch, root, maxDepth) - visited)
    ensures r.result.Failure? ==>
      r.result.error.topic in Within(fetch, root, maxDepth) - visited && fetch(r.result.error.topic) == Failure(r.result.error.cause)
    ensures r.result.Success? ==> nodes <= r.result.value
    ensures r.result.Success? ==> IdSet(r.result.value) == Within(fetch, root, maxDepth)
    ensures r.result.Success? ==> DistinctIds(r.result.value) && Faithful(fetch, r.result.value)
    decreases maxDepth - depth
  {
    var level := ExpandLevel(fetch, frontier, depth < maxDepth, visited);
    WithinMonotone(fetch, root, depth, maxDepth);
    if level.result.Failure? then Run(Failure(level.result.error), level.fetched)
    else
      var lv := level.result.value;
      var merged := Merge(nodes, lv.claimed);
      MergedLevel(fetch, root, depth, frontier, visited, nodes, lv);
      if depth < maxDepth then
        NextLevel(fetch, root, depth, frontier, visited, nodes, lv);
        var r := BuildLevels(fetch, root, lv.next, depth + 1, maxDepth, lv.visited, merged);
        FetchableSplit(fetch, Elems(frontier) - visited, Within(fetch, root, maxDepth) - lv.visited);
        Run(r.result, level.fetched + r.fetched)
      else
        Run(Success(merged), level.fetched)
  }

  /** The lookups of the levels `depth` to `maxDepth`: no topic twice, only
      unvisited topics within reach, all of them when the build succeeds, and
      when it fails, all unvisited topics up to the level of the failed topic. */
  ghost predicate LevelsLog(fetch: Fetcher, root: Topic, frontier: seq<Topic>, depth: nat, maxDepth: nat,
                            visited: set<Topic>, nodes: seq<GraphNode>)
    requires depth <= maxDepth && LevelInv(fetch, root, depth, frontier, visited, nodes)
  {
    var r := BuildLevels(fetch, root, frontier, depth, maxDepth, visited, nodes);
    && Distinct(r.fetched) && Elems(r.fetched) <= Within(fetch, root, maxDepth) - visited
    && (r.result.Success? ==> Elems(r.fetched) == Within(fetch, root, maxDepth) - visited)
    && (r.result.Failure? ==> exists d :: depth <= d <= maxDepth && StopsAt(fetch, root, d, visited, r.fetched, r.result.error.topic))
  }

  /** A build that failed at level `d`: it looked up every unvisited topic
      within `d` steps and nothing else, and the failed topic is exactly `d`
      steps from the root. */
  ghost predicate StopsAt(fetch: Fetcher, root: Topic, d: nat, visited: set<Topic>, log: seq<Topic>, failed: Topic)
  {
    && Elems(log) == Within(fetch, root, d) - visited
    && failed in Within(fetch, root, d) - Before(fetch, root, d)
  }

  lemma {:induction false} BuildLog(fetch: Fetcher, root: Topic, frontier: seq<Topic>, depth: nat, maxDepth: nat,
                                    visited: set<Topic>, nodes: seq<GraphNode>)
    requires depth <= maxDepth && LevelInv(fetch, root, depth, frontier, visited, nodes)
    ensures LevelsLog(fetch, root, frontier, depth, maxDepth, visited, nodes)
    decreases maxDepth - depth
  {
    var level := ExpandLevel(fetch, frontier, depth < maxDepth, visited);
    ExpandLog(fetch, frontier, depth < maxDepth, visited);
    if level.result.Failure? {
      FailedLog(fetch, root, frontier, depth, maxDepth, visited, nodes);
    } else if depth == maxDepth {
      LastLog(fetch, root, frontier, depth, visited, nodes);
    } else {
      var lv := level.result.value;
      LevelsStep(fetch, root, frontier, depth, maxDepth, visited, nodes);
      BuildLog(fetch, root, lv.next, depth + 1, maxDepth, lv.visited, Merge(nodes, lv.claimed));
      DeeperLog(fetch, root, frontier, depth, maxDepth, visited, nodes);
    }
  }

  /** A failed level: its lookups are the whole log. */
  lemma FailedLog(fetch: Fetcher, root: Topic, frontier: seq<Topic>, depth: nat, maxDepth: nat,
                  visited: set<Topic>, nodes: seq<GraphNode>)
    requires depth <= maxDepth && LevelInv(fetch, root, depth, frontier, visited, nodes)
    requires LevelLog(fetch, frontier, depth < maxDepth, visited)
    requires ExpandLevel(fetch, frontier, depth < maxDepth, visited).result.Failure?
    ensures LevelsLog(fetch, root, frontier, depth, maxDepth, visited, nodes)
  {
    LevelsFailed(fetch, root, frontier, depth, maxDepth, visited, nodes);
    WithinMonotone(fetch, root, depth, maxDepth);
    var level := ExpandLevel(fetch, frontier, depth < maxDepth, visited);
    assert StopsAt(fetch, root, depth, visited, level.fetched, level.result.error.topic);
  }

  /** A successful level at `maxDepth`: its lookups are the whole log. */
  lemma LastLog(fetch: Fetcher, root: Topic, frontier: seq<Topic>, depth: nat,
                visited: set<Topic>, nodes: seq<GraphNode>)
    requires LevelInv(fetch, root, depth, frontier, visited, nodes)
    requires LevelLog(fetch, frontier, false, visited)
    requires ExpandLevel(fetch, frontier, false, visited).result.Success?
    ensures LevelsLog(fetch, root, frontier, depth, depth, visited, nodes)
  {
    LevelsLast(fetch, root, frontier, depth, visited, nodes);
  }

  /** A successful level below `maxDepth`: its lookups followed by those of
      the deeper levels. */
  lemma DeeperLog(fetch: Fetcher, root: Topic, frontier: seq<Topic>, depth: nat, maxDepth: nat,
                  visited: set<Topic>, nodes: seq<GraphNode>)
    requires depth < maxDepth && LevelInv(fetch, root, depth, frontier, visited, nodes)
    requires LevelLog(fetch, frontier, true, visited)
    requires ExpandLevel(fetch, frontier, true, visited).result.Success?
    requires var lv := ExpandLevel(fetch, frontier, true, visited).result.value;
      && LevelInv(fetch, root, depth + 1, lv.next, lv.visited, Merge(nodes, lv.claimed))
      && LevelsLog(fetch, root, lv.next, depth + 1, maxDepth, lv.visited, Merge(nodes, lv.claimed))
    ensures LevelsLog(fetch, root, frontier, depth, maxDepth, visited, nodes)
  {
    var level := ExpandLevel(fetch, frontier, true, visited);
    var lv := level.result.value;
    var rest := BuildLevels(fetch, root, lv.next, depth + 1, maxDepth, lv.visited, Merge(nodes, lv.claimed));
    LevelsStep(fetch, root, frontier, depth, maxDepth, visited, nodes);
    WithinMonotone(fetch, root, depth, maxDepth);
    BallSplit(visited, Elems(frontier), Within(fetch, root, depth), Within(fetch, root, maxDepth));
    LogAppend(Within(fetch, root, maxDepth) - visited, Elems(frontier) - visited,
              Within(fetch, root, maxDepth) - lv.visited, level.fetched, rest.fetched);
    if rest.result.Failure? {
      var d :| depth + 1 <= d <= maxDepth && StopsAt(fetch, root, d, lv.visited, rest.fetched, rest.result.error.topic);
      DeeperStops(fetch, root, depth, d, visited, Elems(frontier), level.fetched, rest.fetched, rest.result.error.topic);
    }
  }

  /** The lookups of a successful level followed by those of deeper levels
      that failed at level `d` are all unvisited topics within `d` steps. */
  lemma DeeperStops(fetch: Fetcher, root: Topic, depth: nat, d: nat, visited: set<Topic>, front: set<Topic>,
                    a: seq<Topic>, b: seq<Topic>, failed: Topic)
    requires depth < d && visited + front == Within(fetch, root, depth)
    requires Distinct(a) && Elems(a) == front - visited && Distinct(b)
    requires StopsAt(fetch, root, d, visited + front, b, failed)
    ensures StopsAt(fetch, root, d, visited, a + b, failed)
  {
    WithinMonotone(fetch, root, depth, d);
    BallSplit(visited, front, Within(fetch, root, depth), Within(fetch, root, d));
    LogAppend(Within(fetch, root, d) - visited, front - visited, Within(fetch, root, d) - (visited + front), a, b);
  }

  /** The rest of the ball splits into the unvisited frontier and what lies beyond it. */
  lemma BallSplit(visited: set<Topic>, front: set<Topic>, inner: set<Topic>, outer: set<Topic>)
    requires visited + front == inner && inner <= outer
    ensures (front - visited) !! (outer - (visited + front))
    ensures (front - visited) + (outer - (visited + front)) == outer - visited
  {
  }

  /** A failed level ends the build with its own error and lookups. */
  lemma LevelsFailed(fetch: Fetcher, root: Topic, frontier: seq<Topic>, depth: nat, maxDepth: nat,
                     visited: set<Topic>, nodes: seq<GraphNode>)
    requires depth <= maxDepth && LevelInv(fetch, root, depth, frontier, visited, nodes)
    requires ExpandLevel(fetch, frontier, depth < maxDepth, visited).result.Failure?
    ensures var level := ExpandLevel(fetch, frontier, depth < maxDepth, visited);
      BuildLevels(fetch, root, frontier, depth, maxDepth, visited, nodes) == Run(Failure(level.result.error), level.fetched)
  {
  }

  /** The level at `maxDepth` is the last: a successful one ends the build
      with its own lookups, which cover the rest of the ball. */
  lemma LevelsLast(fetch: Fetcher, root: Topic, frontier: seq<Topic>, depth: nat,
                   visited: set<Topic>, nodes: seq<GraphNode>)
    requires LevelInv(fetch, root, depth, frontier, visited, nodes)
    requires ExpandLevel(fetch, frontier, false, visited).result.Success?
    ensures var level := ExpandLevel(fetch, frontier, false, visited);
      var r := BuildLevels(fetch, root, frontier, depth, depth, visited, nodes);
      r.result.Success? && r.fetched == level.fetched
      && Within(fetch, root, depth) - visited == Elems(frontier) - visited
  {
  }

  /** Below `maxDepth` a successful level is followed by the deeper levels:
      their outcome is the outcome, and their lookups come after its own. */
  lemma LevelsStep(fetch: Fetcher, root: Topic, frontier: seq<Topic>, depth: nat, maxDepth: nat,
                   visited: set<Topic>, nodes: seq<GraphNode>)
    requires depth < maxDepth && LevelInv(fetch, root, depth, frontier, visited, nodes)
    requires ExpandLevel(fetch, frontier, true, visited).result.Success?
    ensures var level := ExpandLevel(fetch, frontier, true, visited);
      var lv := level.result.value;
      && LevelInv(fetch, root, depth + 1, lv.next, lv.visited, Merge(nodes, lv.claimed))
      && var rest := BuildLevels(fetch, root, lv.next, depth + 1, maxDepth, lv.visited, Merge(nodes, lv.claimed));
         var r := BuildLevels(fetch, root, frontier, depth, maxDepth, visited, nodes);
         r.fetched == level.fetched + rest.fetched && r.result == rest.result
  {
    var lv := ExpandLevel(fetch, frontier, true, visited).result.value;
    MergedLevel(fetch, root, depth, frontier, visited, nodes, lv);
    NextLevel(fetch, root, depth, frontier, visited, nodes, lv);
  }

  /** The lookups of one level followed by those of the later levels repeat
      no topic, stay within the part of the ball still to visit, and cover it
      when both cover their own parts. */
  lemma LogAppend(whole: set<Topic>, now: set<Topic>, later: set<Topic>, a: seq<Topic>, b: seq<Topic>)
    requires now !! later && now + later == whole
    requires Distinct(a) && Elems(a) == now && Distinct(b) && Elems(b) <= later
    ensures Distinct(a + b) && Elems(a + b) <= whole
    ensures Elems(b) == later ==> Elems(a + b) == whole
  {
    DistinctConcat(a, b);
  }

  /** After a successful level the merged nodes are exactly the topics within
      `depth`, once each, all faithful. */
  lemma MergedLevel(fetch: Fetcher, root: Topic, depth: nat, frontier: seq<Topic>, visited: set<Topic>,
                    nodes: seq<GraphNode>, lv: Level)
    requires LevelInv(fetch, root, depth, frontier, visited, nodes)
    requires IdSet(lv.claimed) == Elems(frontier) - visited
    requires DistinctIds(lv.claimed) && Faithful(fetch, lv.claimed)
    ensures nodes <= Merge(nodes, lv.claimed)
    ensures IdSet(Merge(nodes, lv.claimed)) == Within(fetch, root, depth)
    ensures DistinctIds(Merge(nodes, lv.claimed)) && Faithful(fetch, Merge(nodes, lv.claimed))
  {
    var m := Merge(nodes, lv.claimed);
    forall n | n in m ensures fetch(n.id) == Success(n.links) && n.title == Title(n.id) {
      var i :| 0 <= i < |m| && m[i] == n;
      if i < |nodes| {
        assert nodes[i] == n;
      }
    }
  }

  /** The invariant carries over to the next level. */
  lemma NextLevel(fetch: Fetcher, root: Topic, depth: nat, frontier: seq<Topic>, visited: set<Topic>,
                  nodes: seq<GraphNode>, lv: Level)
    requires LevelInv(fetch, root, depth, frontier, visited, nodes)
    requires lv.visited == visited + Elems(frontier)
    requires Elems(lv.next) == Succ(fetch, Elems(frontier) - visited)
    requires IdSet(Merge(nodes, lv.claimed)) == Within(fetch, root, depth)
    requires DistinctIds(Merge(nodes, lv.claimed)) && Faithful(fetch, Merge(nodes, lv.claimed))
    ensures LevelInv(fetch, root, depth + 1, lv.next, lv.visited, Merge(nodes, lv.claimed))
  {
    SuccUnion(fetch, visited, Elems(frontier) - visited);
    assert visited + (Elems(frontier) - visited) == Within(fetch, root, depth);
    SuccBefore(fetch, root, depth);
  }

  lemma FetchableSplit(fetch: Fetcher, a: set<Topic>, b: set<Topic>)
    ensures Fetchable(fetch, a + b) <==> Fetchable(fetch, a) && Fetchable(fetch, b)
  {
  }

  /** Builds the node collection for `root`, expanding links up to `maxDepth`
      steps away. The build succeeds exactly when every topic within reach can
      be fetched, and then holds one faithful node per topic within reach. */
  function BuildGraph(fetch: Fetcher, root: Topic, maxDepth: nat): (r: Result<seq<GraphNode>, BuildError>)
    ensures r.Success? <==> Fetchable(fetch, Within(fetch, root, maxDepth))
    ensures r.Failure? ==>
      r.error.topic in Within(fetch, root, maxDepth) && fetch(r.error.topic) == Failure(r.error.cause)
    ensures r.Success? ==> IdSet(r.value) == Within(fetch, root, maxDepth)
    ensures r.Success? ==> DistinctIds(r.value) && Faithful(fetch, r.value)
  {
    BuildLevels(fetch, root, [root], 0, maxDepth, {}, []).result
  }

  /** The topics the build looks up, in order, up to the end of the level
      that decides the answer. No topic is looked up twice, every lookup is of
      a topic within reach, a successful build looks up exactly the topics it
      records, and a build that fails on a topic `d` steps from the root
      looks up, up to the end of that failed level, exactly the topics within
      `d` steps. */
  function FetchLog(fetch: Fetcher, root: Topic, maxDepth: nat): (log: seq<Topic>)
    ensures Distinct(log)
    ensures Elems(log) <= Within(fetch, root, maxDepth)
    ensures BuildGraph(fetch, root, maxDepth).Success? ==> Elems(log) == IdSet(BuildGraph(fetch, root, maxDepth).value)
    ensures BuildGraph(fetch, root, maxDepth).Failure? ==>
      exists d: nat :: d <= maxDepth && Elems(log) == Within(fetch, root, d)
        && BuildGraph(fetch, root, maxDepth).error.topic in Within(fetch, root, d) - Before(fetch, root, d)
  {
    assert Within(fetch, root, 0) == {root};
    BuildLog(fetch, root, [root], 0, maxDepth, {}, []);
    var r := BuildLevels(fetch, root, [root], 0, maxDepth, {}, []);
    if r.result.Failure? then
      FailedBuildLog(fetch, root, maxDepth, r.fetched, r.result.error.topic);
      r.fetched
    else r.fetched
  }

  /** The failure clause of the whole build's log, from the one of its levels. */
  lemma FailedBuildLog(fetch: Fetcher, root: Topic, maxDepth: nat, log: seq<Topic>, failed: Topic)
    requires exists d :: 0 <= d <= maxDepth && StopsAt(fetch, root, d, {}, log, failed)
    ensures exists d: nat :: d <= maxDepth && Elems(log) == Within(fetch, root, d)
              && failed in Within(fetch, root, d) - Before(fetch, root, d)
  {
    var d :| 0 <= d <= maxDepth && StopsAt(fetch, root, d, {}, log, failed);
    assert Within(fetch, root, d) - {} == Within(fetch, root, d);
  }

  /** The builder records the root first: the first level claims only the
      root, and later levels only append. */
  lemma RootFirst(fetch: Fetcher, root: Topic, maxDepth: nat)
    requires BuildGraph(fetch, root, maxDepth).Success?
    ensures fetch(root).Success?
    ensures var nodes := BuildGraph(fetch, root, maxDepth).value;
      |nodes| > 0 && nodes[0] == MakeNode(root, fetch(root).value)
  {
    assert root in Within(fetch, root, maxDepth) by {
      WithinMonotone(fetch, root, 0, maxDepth);
    }
    RootLevel(fetch, root, 0 < maxDepth);
  }

  /** The first level claims the root alone. */
  lemma RootLevel(fetch: Fetcher, root: Topic, expand: bool)
    requires fetch(root).Success?
    ensures var level := ExpandLevel(fetch, [root], expand, {}).result;
      level.Success? && Merge([], level.value.claimed) == [MakeNode(root, fetch(root).value)]
  {
    var level := ExpandLevel(fetch, [root], expand, {}).result;
    assert Elems([root]) == {root};
    var claimed := level.value.claimed;
    assert claimed == [MakeNode(root, fetch(root).value)] by {
      DistinctIdsCount(claimed);
      assert claimed[0] in claimed && claimed[0].id in IdSet(claimed);
    }
    MergeDisjoint([], claimed);
  }

  /** Whether the request names a topic of 1 to 50 characters and, if a depth
      is given, one of at most 5. Requests outside these bounds are refused
      before the handler runs. */
  predicate ValidRequest(topic: Topic, depth: Option<nat>)
  {
    1 <= |topic| <= 50 && (depth.Some? ==> depth.value <= 5)
  }

  /** The request handler: the depth defaults to 0, the root of the answer is
      the queried topic, and a failed build is passed on as the error. */
  function GetGraph(fetch: Fetcher, topic: Topic, depth: Option<nat>): (r: Result<LinkGraph, BuildError>)
    requires ValidRequest(topic, depth)
    ensures r.Success? <==> Fetchable(fetch, Within(fetch, topic, depth.GetOr(0)))
    ensures r.Failure? ==>
      r.error.topic in Within(fetch, topic, depth.GetOr(0)) && fetch(r.error.topic) == Failure(r.error.cause)
    ensures r.Success? ==> r.value.root == topic
    ensures r.Success? ==> fetch(topic).Success? && |r.value.nodes| > 0 && r.value.nodes[0] == MakeNode(topic, fetch(topic).value)
    ensures r.Success? ==> IdSet(r.value.nodes) == Within(fetch, topic, depth.GetOr(0))
    ensures r.Success? ==> DistinctIds(r.value.nodes) && Faithful(fetch, r.value.nodes)
  {
    var maxDepth := depth.GetOr(0);
    match BuildGraph(fetch, topic, maxDepth)
    case Success(nodes) =>
      RootFirst(fetch, topic, maxDepth);
      Success(LinkGraph(topic, nodes))
    case Failure(e) => Failure(e)
  }
}

=== FILE: merge.dfy ===
/** Merging a child's node collection into the parent's, keeping the node that
    is already present whenever an id repeats (first writer wins). */
module NodeMerge {
  import opened Types

  function Merge(acc: seq<GraphNode>, child: seq<GraphNode>): (r: seq<GraphNode>)
    ensures acc <= r
    ensures IdSet(r) == IdSet(acc) + IdSet(child)
    ensures forall i :: |acc| <= i < |r| ==> r[i] in child && r[i].id !in IdSet(acc)
    ensures DistinctIds(acc) ==> DistinctIds(r)
    decreases |child|
  {
    if |child| == 0 then acc
    else
      assert child == [child[0]] + child[1..];
      assert IdSet(child) == {child[0].id} + IdSet(child[1..]);
      if child[0].id in IdSet(acc) then Merge(acc, child[1..])
      else
        assert IdSet(acc + [child[0]]) == IdSet(acc) + {child[0].id};
        Merge(acc + [child[0]], child[1..])
  }

  /** When the two collections share no id the merge loses nothing: it is
      plain concatenation. */
  lemma {:induction false} MergeDisjoint(acc: seq<GraphNode>, child: seq<GraphNode>)
    requires IdSet(acc) !! IdSet(child)
    requires DistinctIds(child)
    ensures Merge(acc, child) == acc + child
    decreases |child|
  {
    if |child| > 0 {
      var first, rest := child[0], child[1..];
      DistinctTail(child);
      IdSetAppend(acc, first);
      calc {
        Merge(acc, child);
        { MergeFresh(acc, child); }
        Merge(acc + [first], rest);
        { MergeDisjoint(acc + [first], rest); }
        (acc + [first]) + rest;
        { assert [first] + rest == child; }
        acc + child;
      }
    }
  }

  /** A child node whose id is new is appended. */
  lemma MergeFresh(acc: seq<GraphNode>, child: seq<GraphNode>)
    requires |child| > 0 && child[0].id !in IdSet(acc)
    ensures Merge(acc, child) == Merge(acc + [child[0]], child[1..])
  {
  }

  /** Splitting off the first node of a list with distinct ids. */
  lemma DistinctTail(nodes: seq<GraphNode>)
    requires |nodes| > 0 && DistinctIds(nodes)
    ensures IdSet(nodes) == {nodes[0].id} + IdSet(nodes[1..])
    ensures nodes[0].id !in IdSet(nodes[1..])
    ensures DistinctIds(nodes[1..])
  {
    var rest := nodes[1..];
    assert nodes == [nodes[0]] + rest;
    forall j | 0 <= j < |rest| ensures rest[j].id != nodes[0].id {
      assert rest[j] == nodes[j + 1];
    }
    forall i, j | 0 <= i < j < |rest| ensures rest[i].id != rest[j].id {
      assert rest[i] == nodes[i + 1] && rest[j] == nodes[j + 1];
    }
  }

  lemma IdSetAppend(nodes: seq<GraphNode>, n: GraphNode)
    ensures IdSet(nodes + [n]) == IdSet(nodes) + {n.id}
  {
  }
}

=== FILE: properties.dfy ===
/** Consequences of the builder's contract that the request handler and its
    tests rely on: the depth-0 answer, the frontier rule, where every node
    comes from, and the size of the answer on a cycle. */
module GraphProperties {
  import opened Results
  import opened Text
  import opened Types
  import opened Reach
  import opened Graph

  /** At depth 0 the only fetch is the root's; the answer is the root node
      alone, carrying the root's complete link list, or the root's failure. */
  lemma DepthZero(fetch: Fetcher, root: Topic)
    ensures BuildGraph(fetch, root, 0) ==
      match fetch(root)
      case Success(links) => Success([MakeNode(root, links)])
      case Failure(cause) => Failure(FetchFailed(root, cause))
  {
    var r := BuildGraph(fetch, root, 0);
    assert Within(fetch, root, 0) == {root};
    if r.Success? {
      RootFirst(fetch, root, 0);
      DistinctIdsCount(r.value);
      assert r.value == [r.value[0]];
    }
  }

  /** A request without a depth answers with exactly the root node. */
  lemma DefaultDepth(fetch: Fetcher, topic: Topic, links: seq<Topic>)
    requires ValidRequest(topic, None)
    requires fetch(topic) == Success(links)
    ensures GetGraph(fetch, topic, None) == Success(LinkGraph(topic, [MakeNode(topic, links)]))
  {
    DepthZero(fetch, topic);
  }

  /** The frontier rule. The node ids of a successful build are the root plus
      the normalised links of the nodes closer than `maxDepth` to the root:
      every link of such a node becomes a node, while the links of a node at
      exactly `maxDepth` are recorded but add no node of their own. */
  lemma FrontierRule(fetch: Fetcher, root: Topic, maxDepth: nat)
    requires BuildGraph(fetch, root, maxDepth).Success?
    ensures var nodes := BuildGraph(fetch, root, maxDepth).value;
      IdSet(nodes) == {root} + InnerLinks(fetch, root, maxDepth, nodes)
  {
    var nodes := BuildGraph(fetch, root, maxDepth).value;
    var inner := InnerLinks(fetch, root, maxDepth, nodes);
    if maxDepth > 0 {
      var prev := Within(fetch, root, maxDepth - 1);
      WithinStep(fetch, root, maxDepth);
      WithinMonotone(fetch, root, maxDepth - 1, maxDepth);
      forall x | x in Succ(fetch, prev) ensures x in inner {
        var s, l := SuccWitness(fetch, prev, x);
        var n :| n in nodes && n.id == s;
        assert l in n.links;
      }
    }
  }

  /** The normalised links of the nodes closer than `maxDepth` to the root. */
  ghost function InnerLinks(fetch: Fetcher, root: Topic, maxDepth: nat, nodes: seq<GraphNode>): set<Topic>
  {
    set n, l | n in nodes && n.id in Before(fetch, root, maxDepth) && l in n.links :: Normalize(l)
  }

  /** Every node other than the root is the normalised form of a link of some
      recorded node `parent` that is closer than `maxDepth` to the root. */
  lemma NodeParent(fetch: Fetcher, root: Topic, maxDepth: nat, n: GraphNode) returns (parent: GraphNode, l: Topic)
    requires BuildGraph(fetch, root, maxDepth).Success?
    requires n in BuildGraph(fetch, root, maxDepth).value && n.id != root
    ensures parent in BuildGraph(fetch, root, maxDepth).value
    ensures parent.id in Before(fetch, root, maxDepth)
    ensures l in parent.links && Normalize(l) == n.id
  {
    var nodes := BuildGraph(fetch, root, maxDepth).value;
    FrontierRule(fetch, root, maxDepth);
    assert n.id in IdSet(nodes);
    parent, l :| parent in nodes && parent.id in Before(fetch, root, maxDepth) && l in parent.links && Normalize(l) == n.id;
  }

  /** `c` lists space-free topics, each linking only to the next, the last
      back to the first. */
  ghost predicate CycleLinks(fetch: Fetcher, c: seq<Topic>)
  {
    && |c| > 0
    && (forall i :: 0 <= i < |c| ==> ' ' !in c[i])
    && (forall i {:trigger fetch(c[i])} :: 0 <= i < |c| ==> fetch(c[i]) == Success([c[if i + 1 < |c| then i + 1 else 0]]))
  }

  /** The first `n` topics of `c` (all of them once `n` reaches `|c|`). */
  function Prefix(c: seq<Topic>, n: nat): set<Topic>
  {
    set i | 0 <= i < n && i < |c| :: c[i]
  }

  lemma PrefixGrow(c: seq<Topic>, n: nat)
    ensures n < |c| ==> Prefix(c, n + 1) == Prefix(c, n) + {c[n]}
    ensures n >= |c| ==> Prefix(c, n + 1) == Prefix(c, n)
  {
  }

  /** One step out of the first `j` topics of a cycle stays within its first `j + 1`. */
  lemma CycleStepOut(fetch: Fetcher, c: seq<Topic>, j: nat)
    requires CycleLinks(fetch, c)
    ensures Succ(fetch, Prefix(c, j)) <= Prefix(c, j + 1)
  {
    var k := |c|;
    forall x | x in Succ(fetch, Prefix(c, j)) ensures x in Prefix(c, j + 1) {
      var s, l := SuccWitness(fetch, Prefix(c, j), x);
      var i :| 0 <= i < j && i < k && c[i] == s;
      var next := if i + 1 < k then i + 1 else 0;
      assert fetch(c[i]) == Success([c[next]]);
      assert l == c[next];
      NormalizeSpaceless(l);
      assert c[next] in Prefix(c, j + 1);
    }
  }

  /** One step out of the first `j` topics of a cycle reaches topic `j`. */
  lemma CycleStepIn(fetch: Fetcher, c: seq<Topic>, j: nat)
    requires CycleLinks(fetch, c) && 0 < j < |c|
    ensures c[j] in Succ(fetch, Prefix(c, j))
  {
    assert c[j - 1] in Prefix(c, j);
    assert fetch(c[j - 1]) == Success([c[j]]);
    assert c[j] in fetch(c[j - 1]).value;
    NormalizeSpaceless(c[j]);
  }

  /** Within `m` steps of the start of a cycle lie its first `m + 1` topics. */
  lemma {:induction false} CycleWithin(fetch: Fetcher, c: seq<Topic>, m: nat)
    requires CycleLinks(fetch, c)
    ensures Within(fetch, c[0], m) == Prefix(c, m + 1)
    decreases m
  {
    if m == 0 {
      assert Prefix(c, 1) == {c[0]};
    } else {
      var p := Prefix(c, m);
      assert Within(fetch, c[0], m) == p + Succ(fetch, p) by {
        CycleWithin(fetch, c, m - 1);
      }
      CycleStepOut(fetch, c, m);
      if m < |c| {
        CycleStepIn(fetch, c, m);
        PrefixGrow(c, m);
      } else {
        PrefixGrow(c, m);
      }
    }
  }

  lemma {:induction false} DistinctElemsCount(c: seq<Topic>)
    requires Distinct(c)
    ensures |Prefix(c, |c|)| == |c|
    decreases |c|
  {
    if |c| > 0 {
      var n := |c| - 1;
      var init := c[..n];
      assert Prefix(c, |c|) == Prefix(init, n) + {c[n]};
      assert c[n] !in Prefix(init, n);
      DistinctElemsCount(init);
    }
  }

  /** A cycle of `k` distinct topics explored to depth at least `k - 1`
      yields exactly `k` nodes, one per topic. */
  lemma CycleBuild(fetch: Fetcher, c: seq<Topic>, maxDepth: nat)
    requires CycleLinks(fetch, c) && Distinct(c) && |c| <= maxDepth + 1
    ensures BuildGraph(fetch, c[0], maxDepth).Success?
    ensures IdSet(BuildGraph(fetch, c[0], maxDepth).value) == Elems(c)
    ensures |BuildGraph(fetch, c[0], maxDepth).value| == |c|
  {
    CycleWithin(fetch, c, maxDepth);
    assert Prefix(c, maxDepth + 1) == Prefix(c, |c|) == Elems(c);
    var nodes := BuildGraph(fetch, c[0], maxDepth).value;
    DistinctIdsCount(nodes);
    DistinctElemsCount(c);
  }
}

=== FILE: reach.dfy ===
/** The reference the traversal is measured against: the topics reachable
    from the root in a bounded number of normalised-link steps, stepping only
    through topics whose links can be fetched. */
module Reach {
  import opened Results
  import opened Text
  import opened Types

  /** Every topic in `s` can be fetched. */
  ghost predicate Fetchable(fetch: Fetcher, s: set<Topic>)
  {
    forall t :: t in s ==> fetch(t).Success?
  }

  /** The topics one step away from `s`: the normalised links of its fetchable members. */
  ghost function Succ(fetch: Fetcher, s: set<Topic>): set<Topic>
  {
    set t, l | t in s && fetch(t).Success? && l in fetch(t).value :: Normalize(l)
  }

  /** The topics at most `k` steps from `root`. */
  ghost function Within(fetch: Fetcher, root: Topic, k: nat): set<Topic>
    decreases k
  {
    if k == 0 then {root}
    else Within(fetch, root, k - 1) + Succ(fetch, Within(fetch, root, k - 1))
  }

  /** The topics strictly fewer than `k` steps from `root`. */
  ghost function Before(fetch: Fetcher, root: Topic, k: nat): set<Topic>
  {
    if k == 0 then {} else Within(fetch, root, k - 1)
  }

  lemma SuccUnion(fetch: Fetcher, a: set<Topic>, b: set<Topic>)
    ensures Succ(fetch, a + b) == Succ(fetch, a) + Succ(fetch, b)
  {
  }

  lemma SuccMonotone(fetch: Fetcher, a: set<Topic>, b: set<Topic>)
    requires a <= b
    ensures Succ(fetch, a) <= Succ(fetch, b)
  {
  }

  /** One fetched topic contributes exactly its normalised links. */
  lemma SuccSingleton(fetch: Fetcher, t: Topic, links: seq<Topic>)
    requires fetch(t) == Success(links)
    ensures Succ(fetch, {t}) == Elems(NormalizeAll(links))
  {
    var n := NormalizeAll(links);
    forall x | x in Succ(fetch, {t}) ensures x in Elems(n) {
      var l :| l in links && Normalize(l) == x;
      var i :| 0 <= i < |links| && links[i] == l;
      assert n[i] == x;
    }
    forall x | x in Elems(n) ensures x in Succ(fetch, {t}) {
      var i :| 0 <= i < |n| && n[i] == x;
      assert links[i] in fetch(t).value;
    }
  }

  /** The balls grow with the radius. */
  lemma {:induction false} WithinMonotone(fetch: Fetcher, root: Topic, a: nat, b: nat)
    requires a <= b
    ensures Within(fetch, root, a) <= Within(fetch, root, b)
    decreases b - a
  {
    if a < b {
      WithinMonotone(fetch, root, a, b - 1);
      WithinGrows(fetch, root, b - 1);
    }
  }

  /** Each ball contains the one of the radius before it. */
  lemma WithinGrows(fetch: Fetcher, root: Topic, k: nat)
    ensures Within(fetch, root, k) <= Within(fetch, root, k + 1)
  {
  }

  /** The step out of the topics already reached lands within one more step. */
  lemma SuccBefore(fetch: Fetcher, root: Topic, k: nat)
    ensures Succ(fetch, Before(fetch, root, k)) <= Within(fetch, root, k)
  {
  }

  /** The ball of radius `k` is the root plus one step out of the ball of radius `k - 1`. */
  lemma {:induction false} WithinStep(fetch: Fetcher, root: Topic, k: nat)
    requires k > 0
    ensures Within(fetch, root, k) == {root} + Succ(fetch, Within(fetch, root, k - 1))
    decreases k
  {
    if k > 1 {
      var prev := Within(fetch, root, k - 1);
      assert prev == {root} + Succ(fetch, Within(fetch, root, k - 2)) by {
        WithinStep(fetch, root, k - 1);
      }
      assert Succ(fetch, Within(fetch, root, k - 2)) <= Succ(fetch, prev) by {
        WithinMonotone(fetch, root, k - 2, k - 1);
        SuccMonotone(fetch, Within(fetch, root, k - 2), prev);
      }
    }
  }

  /** Every topic reached other than the root was reached as the normalised
      link `l` of a fetchable topic `s` one step closer to the root. */
  lemma WithinParent(fetch: Fetcher, root: Topic, k: nat, t: Topic) returns (s: Topic, l: Topic)
    requires t in Within(fetch, root, k) && t != root
    ensures k > 0 && s in Within(fetch, root, k - 1)
    ensures fetch(s).Success? && l in fetch(s).value && Normalize(l) == t
  {
    WithinStep(fetch, root, k);
    s, l := SuccWitness(fetch, Within(fetch, root, k - 1), t);
  }

  lemma SuccWitness(fetch: Fetcher, from: set<Topic>, t: Topic) returns (s: Topic, l: Topic)
    requires t in Succ(fetch, from)
    ensures s in from && fetch(s).Success? && l in fetch(s).value && Normalize(l) == t
  {
    s, l :| s in from && fetch(s).Success? && l in fetch(s).value && Normalize(l) == t;
  }
}

=== FILE: results.dfy ===
/** Optional values and success/failure results, used for the optional
    request depth and for fetches and builds that may fail. */
module Results {

  /** A value that may be absent; here, the request's optional depth. */
  datatype Option<+T> = None | Some(value: T) {

    /** The wrapped value, or `default` when there is none. */
    function GetOr(default: T): (r: T)
      ensures Some? ==> r == value
      ensures None? ==> r == default
    {
      match this
      case Some(v) => v
      case None => default
    }
  }

  datatype Result<+T, +E> = Success(value: T) | Failure(error: E)
}

=== FILE: scenarios.dfy ===
/** The request-level scenarios of graph/graph.test.ts, plus three scenarios
    of failing lookups that the tests do not cover (`FailureWithinDepth`,
    `FailureBeyondDepthUnseen`, `FailureLooksUpSiblings`), stated for the
    failure path and depth gate of graph/graph.ts. Each holds for every link
    lookup that answers the scenario's topics as its table does; topics
    outside the table are never reached, so their answers do not matter.
    Apart from the depth-0 scenario they are stated on the builder: the
    handler adds only the queried topic as root and the root's node first,
    which `Graph.GetGraph` states for every request. */
module Scenarios {
  import opened Results
  import opened Text
  import opened Types
  import opened Reach
  import opened Graph
  import opened GraphProperties

  /** One step out of a topic with the single space-free link `x` reaches `x`. */
  lemma SuccOne(fetch: Fetcher, t: Topic, x: Topic)
    requires fetch(t) == Success([x]) && ' ' !in x
    ensures Succ(fetch, {t}) == {x}
  {
    SuccSingleton(fetch, t, [x]);
    NormalizeSpaceless(x);
    assert NormalizeAll([x]) == [x];
  }

  /** One step out of a topic with the space-free links `x` and `y` reaches both. */
  lemma SuccTwo(fetch: Fetcher, t: Topic, x: Topic, y: Topic)
    requires fetch(t) == Success([x, y]) && ' ' !in x && ' ' !in y
    ensures Succ(fetch, {t}) == {x, y}
  {
    SuccSingleton(fetch, t, [x, y]);
    NormalizeSpaceless(x);
    NormalizeSpaceless(y);
    assert NormalizeAll([x, y]) == [x, y];
  }

  /** The ball of radius 1 around a root. */
  lemma WithinOne(fetch: Fetcher, root: Topic, next: set<Topic>)
    requires Succ(fetch, {root}) == next
    ensures Within(fetch, root, 1) == {root} + next
  {
    assert Within(fetch, root, 0) == {root};
  }

  /** Depth 0: only the root is recorded, with all of its links. */
  lemma RootOnlyAtDepthZero(fetch: Fetcher, root: Topic, links: seq<Topic>)
    requires ValidRequest(root, Some(0)) && '_' !in root
    requires fetch(root) == Success(links)
    ensures GetGraph(fetch, root, Some(0)) == Success(LinkGraph(root, [GraphNode(root, root, links)]))
  {
    DepthZero(fetch, root);
    TitlePlain(root);
  }

  /** A build whose ball of topics is known and fetchable succeeds with one
      node per topic, each carrying that topic's links. */
  lemma BuildOf(fetch: Fetcher, root: Topic, maxDepth: nat, ball: set<Topic>)
    requires Within(fetch, root, maxDepth) == ball && Fetchable(fetch, ball)
    ensures var r := BuildGraph(fetch, root, maxDepth);
      && r.Success?
      && IdSet(r.value) == ball
      && |r.value| == |ball|
      && (forall n :: n in r.value ==> fetch(n.id) == Success(n.links))
  {
    DistinctIdsCount(BuildGraph(fetch, root, maxDepth).value);
  }

  /** Depth 1 with a root linking only to a child: both are recorded, the
      child with its own links, none of which becomes a node. */
  lemma ChildLinksNotExpanded(fetch: Fetcher, root: Topic, child: Topic, childLinks: seq<Topic>)
    requires ' ' !in child
    requires fetch(root) == Success([child])
    requires fetch(child) == Success(childLinks)
    ensures var r := BuildGraph(fetch, root, 1);
      && r.Success?
      && IdSet(r.value) == {root, child}
      && (forall n :: n in r.value && n.id == root ==> n.links == [child])
      && (forall n :: n in r.value && n.id == child ==> n.links == childLinks)
  {
    assert Within(fetch, root, 1) == {root, child} by {
      SuccOne(fetch, root, child);
      WithinOne(fetch, root, {child});
    }
    BuildOf(fetch, root, 1, {root, child});
  }

  /** Four distinct topics without spaces, standing for A, B, C and D. */
  predicate FourPlain(a: Topic, b: Topic, c: Topic, d: Topic)
  {
    && ' ' !in a && ' ' !in b && ' ' !in c && ' ' !in d
    && a != b && a != c && a != d && b != c && b != d && c != d
  }

  /** The topics within one and two steps of A in the shared-descendant table. */
  lemma SharedWithin(fetch: Fetcher, a: Topic, b: Topic, c: Topic, d: Topic)
    requires FourPlain(a, b, c, d)
    requires fetch(a) == Success([b, c])
    requires fetch(b) == Success([c])
    requires fetch(c) == Success([d])
    ensures Within(fetch, a, 1) == {a, b, c}
    ensures Within(fetch, a, 2) == {a, b, c, d}
  {
    SuccTwo(fetch, a, b, c);
    WithinOne(fetch, a, {b, c});
    assert Within(fetch, a, 1) == {a, b, c};
    SharedStep(fetch, a, b, c, d);
  }

  /** One step out of {A, B, C} in the shared-descendant table. */
  lemma SharedStep(fetch: Fetcher, a: Topic, b: Topic, c: Topic, d: Topic)
    requires ' ' !in b && ' ' !in c && ' ' !in d
    requires fetch(a) == Success([b, c])
    requires fetch(b) == Success([c])
    requires fetch(c) == Success([d])
    ensures Succ(fetch, {a, b, c}) == {b, c, d}
  {
    SuccTwo(fetch, a, b, c);
    SuccOne(fetch, b, c);
    SuccOne(fetch, c, d);
    SuccThree(fetch, a, b, c);
  }

  lemma SuccThree(fetch: Fetcher, a: Topic, b: Topic, c: Topic)
    ensures Succ(fetch, {a, b, c}) == Succ(fetch, {a}) + Succ(fetch, {b}) + Succ(fetch, {c})
  {
    SuccUnion(fetch, {a}, {b});
    SuccUnion(fetch, {a, b}, {c});
    assert {a, b, c} == {a, b} + {c};
  }

  /** Depth 2 with A -> [B, C], B -> [C], C -> [D], D -> []: C is claimed once,
      at depth 1, so D is reached at depth 2 and all four topics are recorded. */
  lemma SharedDescendant(fetch: Fetcher, a: Topic, b: Topic, c: Topic, d: Topic)
    requires FourPlain(a, b, c, d)
    requires fetch(a) == Success([b, c])
    requires fetch(b) == Success([c])
    requires fetch(c) == Success([d])
    requires fetch(d) == Success([])
    ensures var r := BuildGraph(fetch, a, 2);
      && r.Success?
      && IdSet(r.value) == {a, b, c, d}
      && |r.value| == 4
      && (forall n :: n in r.value && n.id == b ==> n.links == [c])
      && (forall n :: n in r.value && n.id == c ==> n.links == [d])
      && (forall n :: n in r.value && n.id == d ==> n.links == [])
  {
    SharedWithin(fetch, a, b, c, d);
    BuildOf(fetch, a, 2, {a, b, c, d});
    CardFour(a, b, c, d);
  }

  lemma CardFour(a: Topic, b: Topic, c: Topic, d: Topic)
    requires FourPlain(a, b, c, d)
    ensures |{a, b, c, d}| == 4
  {
    assert |{a, b}| == 2;
    assert {a, b, c} == {a, b} + {c};
    assert |{a, b, c}| == 3;
    assert {a, b, c, d} == {a, b, c} + {d};
  }

  /** The test's own topics satisfy the scenario's side conditions. */
  lemma ScenarioTopics()
    ensures FourPlain("A", "B", "C", "D")
  {
  }

  /** One step out of a topic whose lookup fails reaches nothing. */
  lemma SuccFailed(fetch: Fetcher, t: Topic)
    requires fetch(t).Failure?
    ensures Succ(fetch, {t}) == {}
  {
  }

  /** The topics within two steps of A when the lookup of C fails. */
  lemma FailingWithin(fetch: Fetcher, a: Topic, b: Topic, c: Topic, cause: string)
    requires ' ' !in b && ' ' !in c
    requires fetch(a) == Success([b, c])
    requires fetch(b) == Success([c])
    requires fetch(c) == Failure(cause)
    ensures Within(fetch, a, 2) == {a, b, c}
  {
    SuccTwo(fetch, a, b, c);
    WithinOne(fetch, a, {b, c});
    assert Within(fetch, a, 1) == {a, b, c};
    assert Succ(fetch, {a, b, c}) == {b, c} by {
      SuccOne(fetch, b, c);
      SuccFailed(fetch, c);
      SuccThree(fetch, a, b, c);
    }
  }

  /** The same table with the lookup of C failing: C is within depth 2, so the
      build fails naming C and its cause. */
  lemma FailureWithinDepth(fetch: Fetcher, a: Topic, b: Topic, c: Topic, cause: string)
    requires ' ' !in b && ' ' !in c && a != c && b != c
    requires fetch(a) == Success([b, c])
    requires fetch(b) == Success([c])
    requires fetch(c) == Failure(cause)
    ensures BuildGraph(fetch, a, 2) == Failure(FetchFailed(c, cause))
  {
    var within := Within(fetch, a, 2);
    FailingWithin(fetch, a, b, c, cause);
    var r := BuildGraph(fetch, a, 2);
    assert c in within;
    assert r.Failure?;
    var e := r.error;
    assert e.topic in within && fetch(e.topic) == Failure(e.cause);
    assert e.topic == c;
  }

  /** With the lookup of D failing and depth 1, D is never fetched and the build succeeds. */
  lemma FailureBeyondDepthUnseen(fetch: Fetcher, a: Topic, b: Topic, c: Topic, d: Topic, cause: string)
    requires ' ' !in b && ' ' !in c
    requires fetch(a) == Success([b, c])
    requires fetch(b) == Success([c])
    requires fetch(c) == Success([d])
    requires fetch(d) == Failure(cause)
    ensures var r := BuildGraph(fetch, a, 1);
      r.Success? && IdSet(r.value) == {a, b, c}
  {
    SuccTwo(fetch, a, b, c);
    WithinOne(fetch, a, {b, c});
    BuildOf(fetch, a, 1, {a, b, c});
  }

  /** A root linking to B and C, with B's lookup failing, at depth 1: the
      build fails naming B, and C was looked up too, since it was dispatched
      together with B. */
  lemma FailureLooksUpSiblings(fetch: Fetcher, a: Topic, b: Topic, c: Topic, cause: string)
    requires ' ' !in b && ' ' !in c && a != b
    requires fetch(a) == Success([b, c])
    requires fetch(b) == Failure(cause)
    ensures BuildGraph(fetch, a, 1).Failure?
    ensures Elems(FetchLog(fetch, a, 1)) == {a, b, c}
  {
    SuccTwo(fetch, a, b, c);
    WithinOne(fetch, a, {b, c});
    var r := BuildGraph(fetch, a, 1);
    assert r.Failure? by {
      assert b in Within(fetch, a, 1);
    }
    var log := FetchLog(fetch, a, 1);
    var d: nat :| d <= 1 && Elems(log) == Within(fetch, a, d)
      && r.error.topic in Within(fetch, a, d) - Before(fetch, a, d);
    FailedBeyondRoot(fetch, a, d, r.error.topic);
  }

  /** A topic whose lookup fails is not the root when the root's lookup succeeds. */
  lemma FailedBeyondRoot(fetch: Fetcher, root: Topic, d: nat, t: Topic)
    requires fetch(root).Success? && fetch(t).Failure?
    requires t in Within(fetch, root, d) - Before(fetch, root, d)
    ensures d > 0
  {
  }

  /** A page linking to itself, depth 1: one node, whose links keep the self-reference. */
  lemma SelfLoop(fetch: Fetcher)
    requires fetch("A") == Success(["A"])
    ensures var r := BuildGraph(fetch, "A", 1);
      && r.Success?
      && r.value == [GraphNode("A", "A", ["A"])]
  {
    var c := ["A"];
    assert CycleLinks(fetch, c) by {
      assert fetch(c[0]) == Success([c[0]]);
    }
    CycleBuild(fetch, c, 1);
    RootFirst(fetch, "A", 1);
    TitlePlain("A");
  }

  /** A -> B -> A at depth 2: two nodes, each with its own single link. */
  lemma TwoCycle(fetch: Fetcher, a: Topic, b: Topic)
    requires ' ' !in a && ' ' !in b && a != b
    requires fetch(a) == Success([b])
    requires fetch(b) == Success([a])
    ensures var r := BuildGraph(fetch, a, 2);
      && r.Success?
      && |r.value| == 2
      && IdSet(r.value) == {a, b}
      && (forall n :: n in r.value && n.id == a ==> n.links == [b])
      && (forall n :: n in r.value && n.id == b ==> n.links == [a])
  {
    TwoCycleLinks(fetch, a, b);
    CycleBuild(fetch, [a, b], 2);
  }

  lemma TwoCycleLinks(fetch: Fetcher, a: Topic, b: Topic)
    requires ' ' !in a && ' ' !in b && a != b
    requires fetch(a) == Success([b])
    requires fetch(b) == Success([a])
    ensures CycleLinks(fetch, [a, b]) && Distinct([a, b]) && Elems([a, b]) == {a, b}
  {
    var c := [a, b];
    assert fetch(c[0]) == Success([c[1]]) && fetch(c[1]) == Success([c[0]]);
  }

  /** A -> B -> C -> A at depth 3: three nodes, C linking back to A. */
  lemma ThreeCycle(fetch: Fetcher, a: Topic, b: Topic, c: Topic)
    requires ' ' !in a && ' ' !in b && ' ' !in c && a != b && a != c && b != c
    requires fetch(a) == Success([b])
    requires fetch(b) == Success([c])
    requires fetch(c) == Success([a])
    ensures var r := BuildGraph(fetch, a, 3);
      && r.Success?
      && |r.value| == 3
      && IdSet(r.value) == {a, b, c}
      && (forall n :: n in r.value && n.id == c ==> n.links == [a])
  {
    ThreeCycleLinks(fetch, a, b, c);
    CycleBuild(fetch, [a, b, c], 3);
  }

  lemma ThreeCycleLinks(fetch: Fetcher, a: Topic, b: Topic, c: Topic)
    requires ' ' !in a && ' ' !in b && ' ' !in c && a != b && a != c && b != c
    requires fetch(a) == Success([b])
    requires fetch(b) == Success([c])
    requires fetch(c) == Success([a])
    ensures CycleLinks(fetch, [a, b, c]) && Distinct([a, b, c]) && Elems([a, b, c]) == {a, b, c}
  {
    var cycle := [a, b, c];
    assert fetch(cycle[0]) == Success([cycle[1]]);
    assert fetch(cycle[1]) == Success([cycle[2]]);
    assert fetch(cycle[2]) == Success([cycle[0]]);
  }
}

=== FILE: text.dfy ===
/** The two character rewrites the graph builder applies to topic strings:
    the display title of a node and the normalisation of a link before it is
    expanded. */
module Text {

  /** `s` with every occurrence of `from` replaced by `to`, the effect of a
      global one-character regular-expression replace. */
  function Replace(s: string, from: char, to: char): (r: string)
    ensures |r| == |s|
    ensures forall i :: 0 <= i < |s| ==> r[i] == (if s[i] == from then to else s[i])
    decreases |s|
  {
    if |s| == 0 then ""
    else [if s[0] == from then to else s[0]] + Replace(s[1..], from, to)
  }

  /** The human-readable title of a node: its id with underscores shown as spaces. */
  function Title(id: string): (r: string)
    ensures |r| == |id|
    ensures '_' !in r
    ensures forall i :: 0 <= i < |id| ==> (id[i] == '_' <==> r[i] == ' ' && id[i] != ' ')
    ensures forall i :: 0 <= i < |id| && id[i] != '_' ==> r[i] == id[i]
  {
    Replace(id, '_', ' ')
  }

  /** The topic a link is expanded under: the link with spaces written as underscores. */
  function Normalize(link: string): (r: string)
    ensures |r| == |link|
    ensures ' ' !in r
    ensures forall i :: 0 <= i < |link| && link[i] == ' ' ==> r[i] == '_'
    ensures forall i :: 0 <= i < |link| && link[i] != ' ' ==> r[i] == link[i]
  {
    Replace(link, ' ', '_')
  }

  /** Normalises every link of a list, keeping order and length. */
  function NormalizeAll(links: seq<string>): (r: seq<string>)
    ensures |r| == |links|
    ensures forall i :: 0 <= i < |links| ==> r[i] == Normalize(links[i])
    decreases |links|
  {
    if |links| == 0 then []
    else [Normalize(links[0])] + NormalizeAll(links[1..])
  }

  /** A link without spaces is expanded under exactly its own name. */
  lemma NormalizeSpaceless(s: string)
    requires ' ' !in s
    ensures Normalize(s) == s
  {
    var r := Normalize(s);
    assert forall i :: 0 <= i < |s| ==> r[i] == s[i];
  }

  /** Normalising twice is normalising once. */
  lemma NormalizeIdempotent(s: string)
    ensures Normalize(Normalize(s)) == Normalize(s)
  {
    NormalizeSpaceless(Normalize(s));
  }

  /** The title of a child node does not depend on the normalisation that
      produced its id: it is the raw link with underscores shown as spaces. */
  lemma TitleOfNormalized(link: string)
    ensures Title(Normalize(link)) == Title(link)
  {
    var a, b := Title(Normalize(link)), Title(link);
    assert forall i :: 0 <= i < |link| ==> a[i] == b[i];
  }

  /** An id without underscores is its own title. */
  lemma TitlePlain(id: string)
    requires '_' !in id
    ensures Title(id) == id
  {
    var r := Title(id);
    assert forall i :: 0 <= i < |id| ==> r[i] == id[i];
  }

  /** Round trip: for an id free of spaces, normalising its title gives the id back. */
  lemma NormalizeTitleRoundTrip(id: string)
    requires ' ' !in id
    ensures Normalize(Title(id)) == id
  {
    var r := Normalize(Title(id));
    assert forall i :: 0 <= i < |id| ==> r[i] == id[i];
  }

  /** The asymmetry of the builder: an id that contains a space is not its own
      normalised form, so the same article reached through a link is a
      different topic. */
  lemma SpacedIdIsNotNormal(id: string, i: nat)
    requires i < |id| && id[i] == ' '
    ensures Normalize(id) != id
  {
    assert Normalize(id)[i] == '_';
  }
}

=== FILE: types.dfy ===
/** The records the graph builder produces and the fetch capability it consumes. */
module Types {
  import opened Results
  import opened Text

  /** An article title as the builder passes it around. */
  type Topic = string

  /** One article: its id, its display title and its outbound links exactly as fetched. */
  datatype GraphNode = GraphNode(id: Topic, title: string, links: seq<Topic>)

  /** The answer to one request: the queried topic and every node discovered. */
  datatype LinkGraph = LinkGraph(root: Topic, nodes: seq<GraphNode>)

  /** The outbound-link lookup: the link titles of a topic, or a failure message. */
  type Fetcher = Topic -> Result<seq<Topic>, string>

  /** The node recorded for a topic once its links are known. */
  function MakeNode(id: Topic, links: seq<Topic>): (n: GraphNode)
    ensures n.id == id && n.links == links
    ensures '_' !in n.title && |n.title| == |id|
    ensures forall i :: 0 <= i < |id| ==> n.title[i] == (if id[i] == '_' then ' ' else id[i])
  {
    GraphNode(id, Title(id), links)
  }

  /** The title recorded for a topic reached through a link gives the topic
      back when it is normalised as a link would be. */
  lemma MakeNodeTitleRoundTrip(id: Topic, links: seq<Topic>)
    requires ' ' !in id
    ensures Normalize(MakeNode(id, links).title) == id
  {
    NormalizeTitleRoundTrip(id);
  }

  function Elems<T>(s: seq<T>): set<T>
  {
    set x | x in s
  }

  /** No topic occurs twice. */
  predicate Distinct(s: seq<Topic>)
  {
    forall i, j :: 0 <= i < j < |s| ==> s[i] != s[j]
  }

  /** Joining two lists without repeats and without a common topic gives a
      list without repeats holding the topics of both. */
  lemma DistinctConcat(a: seq<Topic>, b: seq<Topic>)
    requires Distinct(a) && Distinct(b) && Elems(a) !! Elems(b)
    ensures Distinct(a + b) && Elems(a + b) == Elems(a) + Elems(b)
  {
    var s := a + b;
    forall i, j | 0 <= i < j < |s| ensures s[i] != s[j] {
      if j < |a| {
        assert s[i] == a[i] && s[j] == a[j];
      } else if i >= |a| {
        assert s[i] == b[i - |a|] && s[j] == b[j - |a|];
      } else {
        assert s[i] in Elems(a) && s[j] in Elems(b);
      }
    }
  }

  function IdSet(nodes: seq<GraphNode>): set<Topic>
  {
    set n | n in nodes :: n.id
  }

  predicate DistinctIds(nodes: seq<GraphNode>)
  {
    forall i, j :: 0 <= i < j < |nodes| ==> nodes[i].id != nodes[j].id
  }

  /** Every node carries its own fetch output unchanged and its derived title. */
  ghost predicate Faithful(fetch: Fetcher, nodes: seq<GraphNode>)
  {
    forall n :: n in nodes ==> fetch(n.id) == Success(n.links) && n.title == Title(n.id)
  }

  /** Node lists with distinct ids have as many ids as nodes. */
  lemma {:induction false} DistinctIdsCount(nodes: seq<GraphNode>)
    requires DistinctIds(nodes)
    ensures |IdSet(nodes)| == |nodes|
    decreases |nodes|
  {
    if |nodes| > 0 {
      var rest := nodes[1..];
      assert DistinctIds(rest) by {
        forall i, j | 0 <= i < j < |rest| ensures rest[i].id != rest[j].id {
          assert rest[i] == nodes[i + 1] && rest[j] == nodes[j + 1];
        }
      }
      DistinctIdsCount(rest);
      assert nodes == [nodes[0]] + rest;
      assert IdSet(nodes) == {nodes[0].id} + IdSet(rest);
      assert nodes[0].id !in IdSet(rest) by {
        forall j | 0 <= j < |rest| ensures rest[j].id != nodes[0].id {
          assert rest[j] == nodes[j + 1];
        }
      }
    }
  }
}
